=== FILE: README.md ===
# Author tools workers: a Dafny model

This project models the server-side logic of two Cloudflare workers that put
a chat-completion model behind a small web page for book authors.

- `worker.js` (module `BookWorker`, with `Sanitizer`) handles a POST by its `job_type`:
  - "make_art" asks the model, as an art director, for a cover-image prompt. The book text is first cut to 1000 characters.
  - "process_book" runs five agents over the book text and returns their results as `{ tags, bisac, hooks, copy, polish }`.
    - Four agents are one call each.
    - `copy` is a two-step chain: a draft, then a refine call that embeds the draft.
  - Every agent result goes through `cleanOutput`. This deletes code fences, blank lines, quotes and brackets, and trims the text.
  - Every user text sent to the model is cut to 15000 characters.
- `workers.js` (module `PublishWorker`) selects one of six personas by `mode` and forwards the `message` untruncated. It answers `{ reply }`.

Both workers answer OPTIONS with an empty CORS response and GET with their HTML page. Every method other than OPTIONS, GET and POST gets 405. A worker.js POST whose `job_type` is neither of the two also gets 405.

The network round trip (`fetch` plus `response.json()`) is a parameter, `Chat.Provider`. It is a function from the request body to either the parsed answer or the message of the error it threw. `request.json()` appears as a `Result` field of the request. All members are functions and lemmas, as the workers themselves are straight-line code without mutable state.

`cleanOutput` follows ECMAScript semantics. Each `replace(/…/g, "")` deletes its matches from left to right, without overlaps. In the blank-line stage `/^\s*[\r\n]/gm`, `^` matches at the start of the text and after any line terminator of the stage's input: `\n`, `\r`, U+2028 or U+2029. At such a position the stage deletes the longest whitespace run that ends in `\r` or `\n`, and searching resumes after it. So `"a\r\nb"` becomes `"a\rb"`. `\s` and `trim` use the full ECMAScript whitespace set.

Some properties of the code are worth knowing before reading the model:

- `cleanOutput` is not idempotent: `"a\n\"\nb"` cleans to `"a\n\nb"`, and cleaning that again gives `"a\nb"`. The same happens for any two letters in place of `a` and `b` (`Sanitizer.CleanOutputNotIdempotent`).
- Its result can still hold a code fence: `` ``"` `` cleans to ```` ``` ```` (`Sanitizer.CleanOutputCanLeaveFence`).
- The blank-line stage deletes whitespace-only lines at every line start, not only at the start of the text. Its own result has no blank line left (`Sanitizer.StripBlankLinesLeavesNoBlankLine`).
- The refine text is itself cut to 15000 characters. Its fixed part before the draft is 165 characters long, so a draft longer than 14835 characters reaches the model cut (`BookWorker.RefineRequestEmbedsDraft`).

## Model

| member | source | states |
|---|---|---|
| `Sanitizer.RemoveAll` | worker.js:107-108 | Deleting every literal fence from the left yields a subsequence of the text. |
| `Sanitizer.RemoveAllAbsent` | worker.js:107-108 | A text in which the fence's first character never occurs is left unchanged. |
| `Sanitizer.RemoveAllAfterAbsent` | worker.js:107-108 | A stretch without the fence's first character passes through unchanged, whatever follows it. |
| `Sanitizer.RemoveAllKeepsNonMatch` | worker.js:107-108 | A character at which no match starts is kept, a stray backtick included, and deletion goes on after it. |
| `Sanitizer.RemoveAllDeletesMatch` | worker.js:107-108 | A fence that follows such a stretch is deleted, and the scan goes on right after it: `a + pat + t` becomes `a` followed by the cleaned `t`. |
| `Sanitizer.BlankLen` | worker.js:109 | The match of `\s*[\r\n]` is all whitespace and ends in `\r` or `\n`. No longer whitespace prefix ends in one, so the match is the greedy regex match; 0 means no match. |
| `Sanitizer.StripBlankLinesFrom` | worker.js:109 | The blank-line stage's result is a subsequence of its input. |
| `Sanitizer.StripBlankLinesKeepsText` | worker.js:109 | The blank-line stage deletes only whitespace: it keeps every other character, as often as it occurs. |
| `Sanitizer.StripBlankLinesAbsent` | worker.js:109 | A text with no line that is empty or whitespace-only up to a `\r` or `\n` passes the blank-line stage unchanged. |
| `Sanitizer.StripBlankLinesLeavesNoBlankLine` | worker.js:109 | The blank-line stage's result has no line start followed by a whitespace-only run that ends in `\r` or `\n`. |
| `Sanitizer.StripBlankLinesIdempotent` | worker.js:109 | Applying the blank-line stage twice gives the same text as applying it once. |
| `Sanitizer.LeadingNewlineStripped` | worker.js:109 | A line break at the start of the text is deleted together with any blank lines after it. |
| `Sanitizer.DeleteChars` | worker.js:110-111 | The quote and bracket stages leave none of their characters and yield a subsequence. |
| `Sanitizer.DeleteCharsKeepsOthers` | worker.js:110-111 | The quote and bracket stages keep every other character, as often as it occurs. |
| `Sanitizer.DeleteCharsAbsent` | worker.js:110-111 | A text without quotes or brackets passes those stages unchanged. |
| `Sanitizer.Trim` | worker.js:112 | `trim` yields a subsequence whose first and last characters are not whitespace. |
| `Sanitizer.TrimKeepsText` | worker.js:112 | `trim` deletes only whitespace. |
| `Sanitizer.TrimAbsent` | worker.js:112 | A text without surrounding whitespace is left unchanged by `trim`. |
| `Sanitizer.CleanOutput` | worker.js:104-113 | An empty or absent text gives "". The result never holds `"`, `[` or `]`, and has no leading or trailing whitespace. |
| `Sanitizer.CleanOutputOnlyDeletes` | worker.js:106-112 | The result is a subsequence of the text, so it is never longer. |
| `Sanitizer.CleanOutputKeepsCleanText` | worker.js:104-113 | A text is returned unchanged if it has no backtick, quote or bracket, no blank line and no surrounding whitespace. |
| `Sanitizer.CleanOutputUnwrapsJsonFence` | worker.js:107-109 | A reply wrapped as "```json", newline, body, "```" cleans to the same text as the bare body, when the body has no backtick. |
| `Sanitizer.CleanOutputNotIdempotent` | worker.js:109-110 | Take any two characters x and y that are not whitespace, a quote, a bracket or a backtick. Then x, newline, quote, newline, y cleans to x, newline, newline, y, which cleans again to x, newline, y. So `cleanOutput` is not idempotent; `"a\n\"\nb"` is one instance. |
| `Sanitizer.CleanOutputChain` | worker.js:104-113 | A backtick-free text whose blank-line and quote stages leave nothing for the bracket and trim stages cleans to exactly what the quote stage produced. |
| `Sanitizer.CleanOutputCanLeaveFence` | worker.js:108-110 | `` ``"` `` cleans to a bare fence. |
| `Chat.ReplyOr` | worker.js:137 | `choices?.[0]?.message?.content \|\| fallback`: the content when present and non-empty, else the fallback. The result is never "" when the fallback is not "". workers.js:275 uses the same rule. |
| `Chat.SystemThenUser` | workers.js:265-271 | The body holds `MODEL_ID` and exactly two messages: the system text, then the user text. |
| `BookWorker.Prefix` | worker.js:131 | `substring(0, n)` is the prefix of length min(\|s\|, n). |
| `BookWorker.OpenRouterRequest` | worker.js:127-133 | `MODEL_ID`, then exactly two messages. The system message comes first. The user message is the prefix of length min(\|user\|, 15000). |
| `BookWorker.CallOpenRouter` | worker.js:115-138 | A user text that is not a string throws before sending. A failed round trip fails the call. Otherwise the reply is the content or "AI Error", never "". |
| `BookWorker.RunAgent` | worker.js:65-68 | The agent's result is `cleanOutput` of the call with its prompt. It succeeds exactly when the call does, and the result is cleaned. |
| `BookWorker.AgentResultFromReply` | worker.js:65-68 | An agent's result is a subsequence of the model's reply. |
| `BookWorker.CritiquePrompt` | worker.js:83-90 | The refine text is the template's 165-character lead, the draft verbatim right after "Draft: ", then the 3-character tail "\n  ". |
| `BookWorker.FreedomShortcutBlurb` | worker.js:71-93 | The draft call's raw reply is embedded in the refine call's user text, with system "You are a Copywriter.". Only the refine reply is cleaned. A failure of either call fails the chain with that call's own error. |
| `BookWorker.RefineRequestEmbedsDraft` | worker.js:83-91 | The refine request sends the refine text cut to 15000 characters. When the draft fits, it is sent verbatim after "Draft: ". |
| `BookWorker.CoverRequest` | worker.js:95-98 | The cover call sends `MODEL_ID`, system "You are an Art Director." and, as the user message, the book text's prefix of length min(\|text\|, 1000). |
| `BookWorker.GenerateCoverPrompt` | worker.js:95-98 | The cover prompt is the raw reply to that request (not cleaned), or "AI Error". A non-string text throws. |
| `BookWorker.ProcessBook` | worker.js:39-47 | Five results, bound by position to get_tags, get_bisac, get_hooks, the blurb chain and do_polish. It succeeds exactly when all five do, and each result is cleaned. A failed job reports the error of the first failed agent by position. |
| `BookWorker.ReportFields` | worker.js:49 | The response object has exactly the fields tags, bisac, hooks, copy, polish, in that order, each holding the report result of the same name. |
| `BookWorker.AiErrorIsClean` | worker.js:137 | The "AI Error" fallback passes `cleanOutput` unchanged. |
| `BookWorker.ProcessBookToleratesEmptyReplies` | worker.js:41-47 | When every round trip completes, the job yields all five results, whatever the answers hold. |
| `BookWorker.ProcessBookFieldValues` | worker.js:41-49 | In a successful reply, `tags` holds the get_tags result, `bisac` the get_bisac result, `hooks` the get_hooks result, `copy` the blurb chain's result and `polish` the do_polish result. |
| `BookWorker.ProcessBookAllDegraded` | worker.js:41-49 | When no answer has content, all five results are "AI Error". |
| `BookWorker.HandleRequest` | worker.js:20-59 | OPTIONS gives a preflight and GET the page. 405 is returned exactly for other methods and for a POST whose `job_type` is unknown. The status is 405 exactly in those cases. Success bodies have the field `prompt` or the five report fields; error bodies have the single field `error`. A body that does not parse gives that error. "make_art" answers the cover prompt or the error of its call; "process_book" answers the five results or the error of the job. |
| `Http.Status` | worker.js:58 | Status 405 exactly for the "Method not allowed" response, 200 otherwise. |
| `PublishWorker.SelectPrompt` | workers.js:255 | A declared mode gives its persona. Any other or missing mode gives the default persona. |
| `PublishWorker.DeclaredModes` | workers.js:15-74 | The modes are exactly default, keywords, blurb, titles, polish and cover_art, with distinct non-empty personas. |
| `PublishWorker.SystemPromptAsWritten` | workers.js:255 | `PROMPTS[mode] \|\| PROMPTS.default` as evaluated on a plain object always yields a truthy value. |
| `PublishWorker.InheritedModeSkipsDefault` | workers.js:255 | For mode "toString" the lookup as written yields a function, where `SelectPrompt` yields the default persona. |
| `PublishWorker.AsWrittenAgreesOnOtherModes` | workers.js:255 | For every mode that is not an Object.prototype member name, the lookup as written equals `SelectPrompt`. |
| `PublishWorker.RequestBody` | workers.js:265-271 | `MODEL_ID`, then the selected persona as system message, then the message as received, untruncated. |
| `PublishWorker.Reply` | workers.js:253-279 | A successful POST's reply is never empty. |
| `PublishWorker.HandleFetch` | workers.js:248-283 | OPTIONS gives a preflight and GET the page. Only other non-POST methods get the 405 response and status. A POST body has exactly the field `reply`: the content, or "No response.", or "Error: " followed by the error message. |

## Findings

| source | as written | input that shows it | evidently intended | confidence | as-written member | corrected member |
|---|---|---|---|---|---|---|
| workers.js:255 | `PROMPTS[mode] \|\| PROMPTS.default` reads inherited Object.prototype members. A mode naming one yields a function (or, for `__proto__`, `Object.prototype`). `JSON.stringify` drops a function from the system message and sends `Object.prototype` as `{}`; either way the default persona is not sent. | `mode: "toString"` | Any mode other than the six declared ones falls back to the default persona. | not executed | `PublishWorker.InheritedModeSkipsDefault` | `PublishWorker.SelectPrompt` |

The rest of the model builds the request with `SelectPrompt`, the own-property lookup.

## Left out

- Network and JSON I/O are not modelled. `fetch`, `request.json()` and `response.json()` are the `Provider` parameter and the request's `body` field. The API key, the Authorization, Referer and X-Title headers, and the CORS headers are not modelled either.
- The HTML pages (`HTML_UI`, `html`) and their browser scripts are not modelled. These cover rendering, clipboard copying, file reading and image URL building; the model keeps only the `Page` response kind.
- `Promise.all` concurrency is not modelled. The five agents share no state, so they run in order, bound by position. When several agents fail, the real worker reports whichever failure settles first, a timing matter; the model reports the first by position.
- System prompt texts are abbreviated to their first line, and their wording is treated as opaque. The refine step's user text is kept character for character, because its length counts toward the 15000-character cut. The unused local `prompt` in `generateCoverPrompt` is not modelled.
- `BookWorker.NotAStringError` stands for the engine's TypeError message when `substring` is called on a non-string `content`. The exact text depends on the value and is not modelled.
- JavaScript strings are sequences of UTF-16 code units. The model uses Unicode scalar values, so `substring` lengths differ for characters outside the Basic Multilingual Plane.
- Non-string JSON values are not modelled. A reply `content` that is a non-string truthy value (`cleanOutput` would throw on it), a `mode` that is a number, and a `message` that is not a string (forwarded as whatever JSON value it is) are all left out. A missing `message` is left out too: it is `undefined`, so `JSON.stringify` drops the user message's `content` key; the model's `message` is always a string. So is a provider answer that is not an object, such as `null`: reading `data.choices` on it throws, and the worker replies with that error. Absent values are `None`.
- The response header sets beyond the kind of response (JSON content type or not) are not modelled.

=== FILE: book_worker.dfy ===
/**
 * worker.js: the "Author Command Center" worker. A POST with `job_type`
 * "make_art" asks the model for a cover-art prompt; "process_book" runs five
 * agents over the same book text and returns their cleaned replies as one
 * JSON object. The provider is a parameter (see `Chat.Provider`).
 */
module BookWorker {
  import opened Wrappers
  import opened JsText
  import opened Chat
  import opened Http
  import opened Sanitizer

  /** `substring(0, 15000)` applied to every user text sent to the provider. */
  const MaxUserChars: nat := 15000

  /** `substring(0, 1000)` applied to the book text before a cover prompt is requested. */
  const MaxCoverChars: nat := 1000

  /** The reply used when the provider's answer holds no content. */
  const AiError: string := "AI Error"

  /**
   * Stands for the message of the TypeError thrown when `substring` is called
   * on a `content` that is not a string (missing, `null`, a number, ...).
   */
  const NotAStringError: string := "substring is not a function"

  /** The agents of `PROMPTS`, each named by its key. */
  datatype AgentMode = GetTags | GetBisac | GetHooks | DoPolish

  /** `PROMPTS[mode]`; the instruction texts are abbreviated to their first line. */
  function AgentPrompt(mode: AgentMode): string {
    match mode
    case GetTags => "Analyze text. Output exactly 7 high-traffic Amazon KDP keyword phrases."
    case GetBisac => "Identify 3 BISAC Subject Headings."
    case GetHooks => "Generate 5 viral titles and subtitles."
    case DoPolish => "Rewrite first 300 words. Show Don't Tell. Active verbs."
  }

  /** The system instruction of the draft step of the blurb chain (abbreviated to its first line). */
  const DraftPrompt: string := "Using the 'Freedom Shortcut' method, write a blurb."

  /** The system instruction of the refine step of the blurb chain. */
  const CopywriterSystem: string := "You are a Copywriter."

  /** The refine step's user text before and after the embedded draft, with the template's line breaks and indentation. */
  const CritiqueLead: string :=
    "\n    Refine this blurb. \n    - Remove passive voice.\n    - Heighten the stakes.\n"
    + "    - Make it sound like a movie trailer.\n    Output ONLY the final text.\n    Draft: "
  const CritiqueTail: string := "\n  "

  /** The system instruction of the cover-prompt call. */
  const ArtDirectorSystem: string := "You are an Art Director."

  /** `s.substring(0, n)`: the first `n` characters, or all of `s` when it is shorter. */
  function Prefix(s: string, n: nat): (r: string)
    ensures |r| == if |s| < n then |s| else n
    ensures r == s[..|r|]
  {
    if |s| <= n then s else s[..n]
  }

  /** The body `callOpenRouter(system, user)` posts. */
  function OpenRouterRequest(system: string, user: string): (r: ChatRequest)
    ensures r.model == ModelId && |r.messages| == 2
    ensures r.messages[0] == Message(System, system)
    ensures r.messages[1].role == User
    ensures |r.messages[1].content| == if |user| < MaxUserChars then |user| else MaxUserChars
    ensures r.messages[1].content == user[..|r.messages[1].content|]
  {
    SystemThenUser(system, Prefix(user, MaxUserChars))
  }

  /**
   * `callOpenRouter(system, user)`. A `user` that is not a string makes
   * `substring` throw before anything is sent; a failed round trip fails the
   * call; otherwise the reply is the first choice's content or "AI Error".
   */
  function CallOpenRouter(provider: Provider, system: string, user: Option<string>): (r: Result<string>)
    ensures user.None? ==> r == Failure(NotAStringError)
    ensures user.Some? && provider(OpenRouterRequest(system, user.value)).Failure? ==>
              r == Failure(provider(OpenRouterRequest(system, user.value)).error)
    ensures user.Some? && provider(OpenRouterRequest(system, user.value)).Success? ==>
              r == Success(ReplyOr(provider(OpenRouterRequest(system, user.value)).value, AiError))
    ensures r.Success? ==> r.value != ""
  {
    match user
    case None => Failure(NotAStringError)
    case Some(text) =>
      var data :- provider(OpenRouterRequest(system, text));
      Success(ReplyOr(data, AiError))
  }

  /** `runAgent(mode, input)`: one call with the agent's prompt, its reply cleaned. */
  function RunAgent(provider: Provider, mode: AgentMode, input: Option<string>): (r: Result<string>)
    ensures r.Success? <==> CallOpenRouter(provider, AgentPrompt(mode), input).Success?
    ensures r.Success? ==> r.value == CleanOutput(Some(CallOpenRouter(provider, AgentPrompt(mode), input).value))
    ensures r.Failure? ==> r.error == CallOpenRouter(provider, AgentPrompt(mode), input).error
    ensures r.Success? ==> IsCleaned(r.value)
  {
    var raw :- CallOpenRouter(provider, AgentPrompt(mode), input);
    Success(CleanOutput(Some(raw)))
  }

  /** The user text of the refine step: the draft, verbatim, after "Draft: ". */
  function CritiquePrompt(draft: string): (r: string)
    ensures |r| == |CritiqueLead| + |draft| + |CritiqueTail|
    ensures r[..|CritiqueLead|] == CritiqueLead
    ensures r[|CritiqueLead| - |"Draft: "|..|CritiqueLead|] == "Draft: "
    ensures r[|CritiqueLead|..|CritiqueLead| + |draft|] == draft
    ensures r[|CritiqueLead| + |draft|..] == CritiqueTail
  {
    CritiqueLead + draft + CritiqueTail
  }

  /**
   * `runFreedomShortcutBlurb(input)`: a draft call, then a refine call whose
   * user text embeds the raw (uncleaned) draft; only the final reply is cleaned.
   */
  function FreedomShortcutBlurb(provider: Provider, input: Option<string>): (r: Result<string>)
    ensures CallOpenRouter(provider, DraftPrompt, input).Failure? ==>
              r == Failure(CallOpenRouter(provider, DraftPrompt, input).error)
    ensures CallOpenRouter(provider, DraftPrompt, input).Success? ==>
              var draft := CallOpenRouter(provider, DraftPrompt, input).value;
              var final := CallOpenRouter(provider, CopywriterSystem, Some(CritiquePrompt(draft)));
              (r.Success? <==> final.Success?) &&
              (final.Success? ==> r.value == CleanOutput(Some(final.value))) &&
              (final.Failure? ==> r == Failure(final.error))
    ensures r.Success? ==> IsCleaned(r.value)
  {
    var draft :- CallOpenRouter(provider, DraftPrompt, input);
    var final :- CallOpenRouter(provider, CopywriterSystem, Some(CritiquePrompt(draft)));
    Success(CleanOutput(Some(final)))
  }

  /** The body the cover-prompt call posts for a book text. */
  function CoverRequest(input: string): (r: ChatRequest)
    ensures r.model == ModelId
    ensures |r.messages| == 2 && r.messages[0] == Message(System, ArtDirectorSystem) && r.messages[1].role == User
    ensures |r.messages[1].content| == if |input| < MaxCoverChars then |input| else MaxCoverChars
    ensures r.messages[1].content == input[..|r.messages[1].content|]
  {
    OpenRouterRequest(ArtDirectorSystem, Prefix(input, MaxCoverChars))
  }

  /** `generateCoverPrompt(input)`: the reply is returned as the model wrote it, not cleaned. */
  function GenerateCoverPrompt(provider: Provider, input: Option<string>): (r: Result<string>)
    ensures input.None? ==> r == Failure(NotAStringError)
    ensures input.Some? && provider(CoverRequest(input.value)).Success? ==>
              r == Success(ReplyOr(provider(CoverRequest(input.value)).value, AiError))
    ensures input.Some? && provider(CoverRequest(input.value)).Failure? ==>
              r == Failure(provider(CoverRequest(input.value)).error)
  {
    match input
    case None => Failure(NotAStringError)
    case Some(text) => CallOpenRouter(provider, ArtDirectorSystem, Some(Prefix(text, MaxCoverChars)))
  }

  /** The five results of a "process_book" job. */
  datatype BookReport = BookReport(tags: string, bisac: string, hooks: string, copy: string, polish: string)

  /**
   * The `Promise.all` of five independent agents, bound by position. Run in
   * order; the first failure by position is the one reported.
   */
  function ProcessBook(provider: Provider, content: Option<string>): (r: Result<BookReport>)
    ensures r.Success? <==>
              && RunAgent(provider, GetTags, content).Success?
              && RunAgent(provider, GetBisac, content).Success?
              && RunAgent(provider, GetHooks, content).Success?
              && FreedomShortcutBlurb(provider, content).Success?
              && RunAgent(provider, DoPolish, content).Success?
    ensures r.Success? ==>
              && r.value.tags == RunAgent(provider, GetTags, content).value
              && r.value.bisac == RunAgent(provider, GetBisac, content).value
              && r.value.hooks == RunAgent(provider, GetHooks, content).value
              && r.value.copy == FreedomShortcutBlurb(provider, content).value
              && r.value.polish == RunAgent(provider, DoPolish, content).value
    ensures r.Success? ==>
              && IsCleaned(r.value.tags) && IsCleaned(r.value.bisac) && IsCleaned(r.value.hooks)
              && IsCleaned(r.value.copy) && IsCleaned(r.value.polish)
    ensures r.Failure? ==>
              var tags := RunAgent(provider, GetTags, content);
              var bisac := RunAgent(provider, GetBisac, content);
              var hooks := RunAgent(provider, GetHooks, content);
              var copy := FreedomShortcutBlurb(provider, content);
              r.error == if tags.Failure? then tags.error else if bisac.Failure? then bisac.error
                         else if hooks.Failure? then hooks.error else if copy.Failure? then copy.error
                         else RunAgent(provider, DoPolish, content).error
  {
    var tags :- RunAgent(provider, GetTags, content);
    var bisac :- RunAgent(provider, GetBisac, content);
    var hooks :- RunAgent(provider, GetHooks, content);
    var copy :- FreedomShortcutBlurb(provider, content);
    var polish :- RunAgent(provider, DoPolish, content);
    Success(BookReport(tags, bisac, hooks, copy, polish))
  }

  /** `{ tags, bisac, hooks, copy, polish }`. */
  function ReportFields(report: BookReport): (fields: seq<Field>)
    ensures FieldNames(fields) == ["tags", "bisac", "hooks", "copy", "polish"]
    ensures forall i :: 0 <= i < 5 ==>
              fields[i].value == [report.tags, report.bisac, report.hooks, report.copy, report.polish][i]
  {
    [Field("tags", report.tags), Field("bisac", report.bisac), Field("hooks", report.hooks),
     Field("copy", report.copy), Field("polish", report.polish)]
  }

  /** The destructured request body `{ job_type, content }`; `None` is a missing or non-string value. */
  datatype Job = Job(jobType: Option<string>, content: Option<string>)

  /** A request: its method and the outcome of `request.json()` (read only for POST). */
  datatype Request = Request(httpMethod: string, body: Result<Job>)

  /** `handleRequest(request)`. */
  function HandleRequest(provider: Provider, request: Request): (r: Response)
    ensures request.httpMethod == "OPTIONS" ==> r == Preflight
    ensures request.httpMethod == "GET" ==> r == Page
    ensures r.MethodNotAllowed? <==>
              || request.httpMethod !in {"OPTIONS", "GET", "POST"}
              || (&& request.httpMethod == "POST" && request.body.Success?
                  && request.body.value.jobType != Some("make_art")
                  && request.body.value.jobType != Some("process_book"))
    ensures r.JsonReply? ==>
              || FieldNames(r.fields) == ["prompt"]
              || FieldNames(r.fields) == ["tags", "bisac", "hooks", "copy", "polish"]
    ensures Status(r) == 405 <==>
              || request.httpMethod !in {"OPTIONS", "GET", "POST"}
              || (&& request.httpMethod == "POST" && request.body.Success?
                  && request.body.value.jobType != Some("make_art")
                  && request.body.value.jobType != Some("process_book"))
    ensures r.ErrorReply? ==> FieldNames(r.fields) == ["error"]
    ensures request.httpMethod == "POST" && request.body.Failure? ==>
              r == ErrorReply([Field("error", request.body.error)])
    ensures request.httpMethod == "POST" && request.body.Success? && request.body.value.jobType == Some("make_art") ==>
              var p := GenerateCoverPrompt(provider, request.body.value.content);
              r == if p.Success? then JsonReply([Field("prompt", p.value)]) else ErrorReply([Field("error", p.error)])
    ensures request.httpMethod == "POST" && request.body.Success? && request.body.value.jobType == Some("process_book") ==>
              var report := ProcessBook(provider, request.body.value.content);
              r == if report.Success? then JsonReply(ReportFields(report.value)) else ErrorReply([Field("error", report.error)])
  {
    if request.httpMethod == "OPTIONS" then Preflight
    else if request.httpMethod == "GET" then Page
    else if request.httpMethod == "POST" then
      match request.body
      case Failure(message) => ErrorReply([Field("error", message)])
      case Success(job) =>
        if job.jobType == Some("make_art") then
          match GenerateCoverPrompt(provider, job.content)
          case Success(prompt) => JsonReply([Field("prompt", prompt)])
          case Failure(message) => ErrorReply([Field("error", message)])
        else if job.jobType == Some("process_book") then
          match ProcessBook(provider, job.content)
          case Success(report) => JsonReply(ReportFields(report))
          case Failure(message) => ErrorReply([Field("error", message)])
        else MethodNotAllowed
    else MethodNotAllowed
  }

  /** "AI Error" has nothing for `cleanOutput` to delete. */
  lemma AiErrorIsClean()
    ensures CleanOutput(Some(AiError)) == AiError
  {
    SingleLineHasNoBlankLine(AiError);
    CleanOutputKeepsCleanText(AiError);
  }

  /** An agent's result keeps only characters of the model's reply, never more of them. */
  lemma AgentResultFromReply(provider: Provider, mode: AgentMode, input: Option<string>)
    ensures RunAgent(provider, mode, input).Success? ==>
              IsSubsequence(RunAgent(provider, mode, input).value, CallOpenRouter(provider, AgentPrompt(mode), input).value)
  {
    var raw := CallOpenRouter(provider, AgentPrompt(mode), input);
    if raw.Success? {
      CleanOutputOnlyDeletes(raw.value);
    }
  }

  /**
   * The refine step sends the draft verbatim after "Draft: " whenever the
   * whole refine text fits in the 15000-character cap; a longer draft is cut.
   */
  lemma RefineRequestEmbedsDraft(draft: string)
    ensures var sent := OpenRouterRequest(CopywriterSystem, CritiquePrompt(draft)).messages[1].content;
            sent == Prefix(CritiquePrompt(draft), MaxUserChars)
    ensures |CritiqueLead| + |draft| <= MaxUserChars ==>
              var sent := OpenRouterRequest(CopywriterSystem, CritiquePrompt(draft)).messages[1].content;
              && sent[|CritiqueLead| - |"Draft: "|..|CritiqueLead|] == "Draft: "
              && sent[|CritiqueLead|..|CritiqueLead| + |draft|] == draft
  {
  }

  /**
   * A content-less answer is degraded text, never an abort: as long as every
   * round trip completes, a "process_book" job yields all five results.
   */
  lemma ProcessBookToleratesEmptyReplies(provider: Provider, text: string)
    requires forall q :: provider(q).Success?
    ensures ProcessBook(provider, Some(text)).Success?
  {
  }

  /** A provider whose every answer completes but holds no `choices`. */
  function NoContent(q: ChatRequest): Result<ChatResponse> {
    Success(ChatResponse(None))
  }

  /** Against `NoContent`, every call with a string user text yields "AI Error". */
  lemma NoContentCall(system: string, user: string)
    ensures CallOpenRouter(NoContent, system, Some(user)) == Success(AiError)
  {
  }

  /** Each field of a successful "process_book" reply holds the result of the agent it is named after. */
  lemma ProcessBookFieldValues(provider: Provider, content: Option<string>)
    ensures ProcessBook(provider, content).Success? ==>
              var fields := ReportFields(ProcessBook(provider, content).value);
              && fields[0] == Field("tags", RunAgent(provider, GetTags, content).value)
              && fields[1] == Field("bisac", RunAgent(provider, GetBisac, content).value)
              && fields[2] == Field("hooks", RunAgent(provider, GetHooks, content).value)
              && fields[3] == Field("copy", FreedomShortcutBlurb(provider, content).value)
              && fields[4] == Field("polish", RunAgent(provider, DoPolish, content).value)
  {
  }

  /** When every answer lacks content, each of the five results is "AI Error". */
  lemma ProcessBookAllDegraded(text: string)
    ensures ProcessBook(NoContent, Some(text))
         == Success(BookReport(AiError, AiError, AiError, AiError, AiError))
  {
    AiErrorIsClean();
    NoContentCall(DraftPrompt, text);
    NoContentCall(CopywriterSystem, CritiquePrompt(AiError));
    NoContentCall(AgentPrompt(GetTags), text);
    NoContentCall(AgentPrompt(GetBisac), text);
    NoContentCall(AgentPrompt(GetHooks), text);
    NoContentCall(AgentPrompt(DoPolish), text);
    assert FreedomShortcutBlurb(NoContent, Some(text)) == Success(AiError);
  }
}

=== FILE: chat.dfy ===
/**
 * The chat-completion exchange with the model provider, as both workers
 * build and read it: a request body with a model id and a list of messages,
 * and the parsed JSON answer from which `choices[0].message.content` is read.
 */
module Chat {
  import opened Wrappers

  /** `MODEL_ID`, declared with the same value by both workers. */
  const ModelId: string := "openrouter/free"

  datatype Role = System | User

  datatype Message = Message(role: Role, content: string)

  /** The JSON body `{ model, messages }` posted to the provider. */
  datatype ChatRequest = ChatRequest(model: string, messages: seq<Message>)

  /** The parts of the provider's parsed answer that are read; `None` is a missing or `null` property. */
  datatype ChoiceMessage = ChoiceMessage(content: Option<string>)
  datatype Choice = Choice(message: Option<ChoiceMessage>)
  datatype ChatResponse = ChatResponse(choices: Option<seq<Choice>>)

  /**
   * The network round trip: `fetch` followed by `response.json()`. A
   * `Failure` carries the message of the error either of them throws.
   */
  type Provider = ChatRequest -> Result<ChatResponse>

  /** The request body with the system instruction first and the user text second. */
  function SystemThenUser(system: string, user: string): (r: ChatRequest)
    ensures r.model == ModelId && |r.messages| == 2
    ensures r.messages[0] == Message(System, system) && r.messages[1] == Message(User, user)
  {
    ChatRequest(ModelId, [Message(System, system), Message(User, user)])
  }

  /** `data.choices?.[0]?.message?.content`. */
  function FirstContent(data: ChatResponse): Option<string> {
    match data.choices
    case None => None
    case Some(choices) =>
      if choices == [] then None
      else
        match choices[0].message
        case None => None
        case Some(m) => m.content
  }

  /**
   * `data.choices?.[0]?.message?.content || fallback`: the first choice's
   * content when it is present and not empty (an empty string is falsy),
   * otherwise the fallback.
   */
  function ReplyOr(data: ChatResponse, fallback: string): (r: string)
    ensures FirstContent(data).Some? && FirstContent(data).value != "" ==> r == FirstContent(data).value
    ensures FirstContent(data).None? || FirstContent(data).value == "" ==> r == fallback
    ensures fallback != "" ==> r != ""
  {
    match FirstContent(data)
    case Some(content) => if content != "" then content else fallback
    case None => fallback
  }
}

=== FILE: http.dfy ===
/** The responses the workers return, by kind. */
module Http {

  /** One property of a JSON object body, in the order `JSON.stringify` writes it. */
  datatype Field = Field(name: string, value: string)

  datatype Response =
      /** `new Response(null, { headers: CORS_HEADERS })`: the CORS preflight answer, empty body. */
    | Preflight
      /** The single-page HTML front end with `Content-Type: text/html`. */
    | Page
      /** A JSON object body with `Content-Type: application/json`. */
    | JsonReply(fields: seq<Field>)
      /** The JSON object body built in a `catch` block, sent with the CORS headers only. */
    | ErrorReply(fields: seq<Field>)
      /** The text "Method not allowed" with status 405. */
    | MethodNotAllowed

  /** The HTTP status of a response: every kind but `MethodNotAllowed` uses the default 200. */
  function Status(r: Response): (code: nat)
    ensures code == 405 <==> r.MethodNotAllowed?
    ensures code == 200 <==> !r.MethodNotAllowed?
  {
    if r.MethodNotAllowed? then 405 else 200
  }

  function FieldNames(fields: seq<Field>): (names: seq<string>)
    ensures |names| == |fields|
    ensures forall i :: 0 <= i < |fields| ==> names[i] == fields[i].name
  {
    if fields == [] then [] else [fields[0].name] + FieldNames(fields[1..])
  }
}

=== FILE: js_text.dfy ===
/**
 * Character classes of ECMAScript strings and regular expressions, and the
 * "obtained by deleting characters" relation between strings.
 */
module JsText {

  /** The class `\s` of a regular expression; also what `String.prototype.trim` strips. */
  predicate IsWhitespace(c: char) {
    || c == '\t' || c == '\n' || c == '\U{000B}' || c == '\U{000C}' || c == '\r' || c == ' '
    || c == '\U{00A0}' || c == '\U{1680}' || ('\U{2000}' <= c <= '\U{200A}')
    || c == '\U{2028}' || c == '\U{2029}' || c == '\U{202F}' || c == '\U{205F}'
    || c == '\U{3000}' || c == '\U{FEFF}'
  }

  /** The characters after which `^` matches in a multiline (`m`) regular expression. */
  predicate IsLineTerminator(c: char) {
    c == '\n' || c == '\r' || c == '\U{2028}' || c == '\U{2029}'
  }

  /** The class `[\r\n]`. */
  predicate IsNewline(c: char) {
    c == '\n' || c == '\r'
  }

  predicate AllWhitespace(s: string) {
    forall i :: 0 <= i < |s| ==> IsWhitespace(s[i])
  }

  /** `a` can be obtained from `b` by deleting characters. */
  predicate IsSubsequence(a: string, b: string)
    decreases |b|
  {
    if b == [] then a == []
    else (a != [] && a[0] == b[0] && IsSubsequence(a[1..], b[1..])) || IsSubsequence(a, b[1..])
  }

  lemma {:induction false} SubsequenceLength(a: string, b: string)
    requires IsSubsequence(a, b)
    ensures |a| <= |b|
    decreases |b|
  {
    if b != [] {
      if a != [] && a[0] == b[0] && IsSubsequence(a[1..], b[1..]) {
        SubsequenceLength(a[1..], b[1..]);
      } else {
        SubsequenceLength(a, b[1..]);
      }
    }
  }

  lemma {:induction false} SubsequenceReflexive(a: string)
    ensures IsSubsequence(a, a)
    decreases |a|
  {
    if a != [] {
      SubsequenceReflexive(a[1..]);
    }
  }

  lemma {:induction false} SubsequenceTransitive(a: string, b: string, c: string)
    requires IsSubsequence(a, b) && IsSubsequence(b, c)
    ensures IsSubsequence(a, c)
    decreases |c|
  {
    if c != [] {
      if IsSubsequence(b, c[1..]) {
        SubsequenceTransitive(a, b, c[1..]);
      } else {
        assert b != [] && b[0] == c[0] && IsSubsequence(b[1..], c[1..]);
        if a != [] && a[0] == b[0] && IsSubsequence(a[1..], b[1..]) {
          SubsequenceTransitive(a[1..], b[1..], c[1..]);
        } else {
          SubsequenceTransitive(a, b[1..], c[1..]);
        }
      }
    }
  }

  /** Keeping the first character of both strings keeps the relation. */
  lemma SubsequenceCons(x: char, a: string, b: string)
    requires IsSubsequence(a, b)
    ensures IsSubsequence([x] + a, [x] + b)
  {
    assert ([x] + a)[1..] == a;
    assert ([x] + b)[1..] == b;
  }

  /** Deleting a prefix of `b` keeps the relation. */
  lemma {:induction false} SubsequenceOfSuffix(a: string, b: string, k: nat)
    requires k <= |b| && IsSubsequence(a, b[k..])
    ensures IsSubsequence(a, b)
    decreases k
  {
    if k > 0 {
      assert b[1..][k - 1..] == b[k..];
      SubsequenceOfSuffix(a, b[1..], k - 1);
    }
  }

  /** A prefix of `b` is a subsequence of `b`. */
  lemma {:induction false} PrefixIsSubsequence(b: string, j: nat)
    requires j <= |b|
    ensures IsSubsequence(b[..j], b)
    decreases |b|
  {
    if b != [] {
      if j == 0 {
        PrefixIsSubsequence(b[1..], 0);
        assert b[1..][..0] == b[..0];
      } else {
        PrefixIsSubsequence(b[1..], j - 1);
        assert b[..j][1..] == b[1..][..j - 1];
      }
    }
  }

  /** A character that does not occur in `b` does not occur in a subsequence of `b`. */
  lemma {:induction false} SubsequenceExcludes(a: string, b: string, c: char)
    requires IsSubsequence(a, b) && c !in b
    ensures c !in a
    decreases |b|
  {
    if b != [] {
      if a != [] && a[0] == b[0] && IsSubsequence(a[1..], b[1..]) {
        SubsequenceExcludes(a[1..], b[1..], c);
        assert a == [a[0]] + a[1..];
      } else {
        SubsequenceExcludes(a, b[1..], c);
      }
    }
  }

  /** A whitespace-only string holds no other character. */
  lemma WhitespaceCounts(w: string)
    requires AllWhitespace(w)
    ensures forall c :: !IsWhitespace(c) ==> multiset(w)[c] == 0
  {
  }
}

=== FILE: publish_worker.dfy ===
/**
 * workers.js: the "Publish AI" chat worker. A POST carries a message and a
 * mode; the mode selects one of the `PROMPTS` personas as the system
 * instruction, the message is forwarded untruncated, and the model's reply
 * comes back as `{ reply }`. The provider is a parameter (see `Chat.Provider`).
 */
module PublishWorker {
  import opened Wrappers
  import opened Chat
  import opened Http

  /** `PROMPTS`: the six personas by mode; the texts are abbreviated to their first sentence. */
  const Prompts: map<string, string> := map[
    "default" := "You are an expert eBook formatting assistant for Draft2Digital.",
    "keywords" := "You are an Amazon KDP & Draft2Digital SEO Strategist.",
    "blurb" := "You are a Copywriting Expert specializing in the Freedom Shortcut method.",
    "titles" := "You are a Viral Title Consultant.",
    "polish" := "You are a Ruthless Editor.",
    "cover_art" := "You are a Professional AI Art Director for Book Covers."
  ]

  /** The reply used when the provider's answer holds no content. */
  const NoResponse: string := "No response."

  /**
   * The system instruction for a mode: the persona declared under that mode,
   * and the default persona for any other mode or none.
   */
  function SelectPrompt(mode: Option<string>): (r: string)
    ensures r in Prompts.Values && r != ""
    ensures mode.Some? && mode.value in Prompts ==> r == Prompts[mode.value]
    ensures mode.None? || mode.value !in Prompts ==> r == Prompts["default"]
  {
    if mode.Some? && mode.value in Prompts then Prompts[mode.value] else Prompts["default"]
  }

  /** The six declared modes, each with its own persona. */
  lemma DeclaredModes()
    ensures Prompts.Keys == {"default", "keywords", "blurb", "titles", "polish", "cover_art"}
    ensures forall m :: m in Prompts ==> Prompts[m] != ""
    ensures forall m, n :: m in Prompts && n in Prompts && m != n ==> Prompts[m] != Prompts[n]
  {
  }

  // ---------------------------------------------------------------------
  // The lookup as written: `PROMPTS[mode] || PROMPTS.default` on a plain
  // JavaScript object, which also finds the members it inherits from
  // Object.prototype.
  // ---------------------------------------------------------------------

  /** The kinds of value a property read on `PROMPTS` can produce. */
  datatype JsValue = JsString(s: string) | JsFunction | JsObject | JsUndefined

  /** JavaScript truthiness, as `||` tests it. */
  predicate Truthy(v: JsValue) {
    match v
    case JsString(s) => s != ""
    case JsFunction => true
    case JsObject => true
    case JsUndefined => false
  }

  /** The members every object literal inherits from Object.prototype. */
  const InheritedMembers: set<string> := {
    "constructor", "hasOwnProperty", "isPrototypeOf", "propertyIsEnumerable",
    "toLocaleString", "toString", "valueOf", "__defineGetter__", "__defineSetter__",
    "__lookupGetter__", "__lookupSetter__", "__proto__"
  }

  /** The property key a mode becomes: a missing mode reads the key "undefined". */
  function PropertyKey(mode: Option<string>): string {
    match mode
    case Some(m) => m
    case None => "undefined"
  }

  /** `PROMPTS[key]`: own properties first, then Object.prototype (`__proto__` is that object itself). */
  function PromptsProperty(key: string): JsValue {
    if key in Prompts then JsString(Prompts[key])
    else if key == "__proto__" then JsObject
    else if key in InheritedMembers then JsFunction
    else JsUndefined
  }

  /** `PROMPTS[mode] || PROMPTS.default`, as the worker evaluates it. */
  function SystemPromptAsWritten(mode: Option<string>): (v: JsValue)
    ensures Truthy(v)
  {
    var found := PromptsProperty(PropertyKey(mode));
    if Truthy(found) then found else JsString(Prompts["default"])
  }

  /**
   * The lookup as written picks up an inherited method: for the mode
   * "toString" the system "prompt" is a function, which `JSON.stringify`
   * drops, instead of the default persona.
   */
  lemma InheritedModeSkipsDefault()
    ensures SystemPromptAsWritten(Some("toString")) == JsFunction
    ensures SelectPrompt(Some("toString")) == Prompts["default"]
  {
  }

  /** For every mode that is not an inherited member name, the lookup as written is `SelectPrompt`. */
  lemma AsWrittenAgreesOnOtherModes(mode: Option<string>)
    requires mode.None? || mode.value !in InheritedMembers
    ensures SystemPromptAsWritten(mode) == JsString(SelectPrompt(mode))
  {
  }

  // ---------------------------------------------------------------------
  // The request handler.
  // ---------------------------------------------------------------------

  /** The body posted to the provider: the selected persona, then the message as received. */
  function RequestBody(mode: Option<string>, message: string): (r: ChatRequest)
    ensures r.model == ModelId && |r.messages| == 2
    ensures r.messages[0] == Message(System, SelectPrompt(mode))
    ensures r.messages[1] == Message(User, message)
  {
    SystemThenUser(SelectPrompt(mode), message)
  }

  /** The destructured request body `{ message, mode }`; `None` is a missing mode. */
  datatype ChatJob = ChatJob(message: string, mode: Option<string>)

  /** A request: its method and the outcome of `request.json()` (read only for POST). */
  datatype Request = Request(httpMethod: string, body: Result<ChatJob>)

  /** The `fetch` handler. */
  function HandleFetch(provider: Provider, request: Request): (r: Response)
    ensures request.httpMethod == "OPTIONS" ==> r == Preflight
    ensures request.httpMethod == "GET" ==> r == Page
    ensures r.MethodNotAllowed? <==> request.httpMethod !in {"OPTIONS", "GET", "POST"}
    ensures Status(r) == 405 <==> request.httpMethod !in {"OPTIONS", "GET", "POST"}
    ensures request.httpMethod == "POST" ==> (r.JsonReply? || r.ErrorReply?) && FieldNames(r.fields) == ["reply"]
    ensures r.JsonReply? ==> r.fields[0].value != ""
    ensures request.httpMethod == "POST" && request.body.Failure? ==>
              r == ErrorReply([Field("reply", "Error: " + request.body.error)])
    ensures request.httpMethod == "POST" && request.body.Success? ==>
              var answer := provider(RequestBody(request.body.value.mode, request.body.value.message));
              r == if answer.Success? then JsonReply([Field("reply", ReplyOr(answer.value, NoResponse))])
                   else ErrorReply([Field("reply", "Error: " + answer.error)])
  {
    if request.httpMethod == "OPTIONS" then Preflight
    else if request.httpMethod == "GET" then Page
    else if request.httpMethod == "POST" then
      match Reply(provider, request.body)
      case Success(reply) => JsonReply([Field("reply", reply)])
      case Failure(message) => ErrorReply([Field("reply", "Error: " + message)])
    else MethodNotAllowed
  }

  /** The `try` block of the POST branch: parse, select the persona, ask, read the reply. */
  function Reply(provider: Provider, body: Result<ChatJob>): (r: Result<string>)
    ensures r.Success? ==> r.value != ""
  {
    var job :- body;
    var data :- provider(RequestBody(job.mode, job.message));
    Success(ReplyOr(data, NoResponse))
  }
}

=== FILE: sanitizer.dfy ===
/**
 * `cleanOutput` of worker.js: the text shaping applied to a model reply before
 * it is returned to the browser. Each `replace(/.../g, "")` stage is a
 * left-to-right, non-overlapping deletion of every match.
 */
module Sanitizer {
  import opened Wrappers
  import opened JsText

  const JsonFence: string := "```json"
  const Fence: string := "```"

  /** `s.replace(/pat/g, "")` for a literal pattern: matches are found from the left and do not overlap. */
  function RemoveAll(s: string, pat: string): (r: string)
    requires pat != []
    ensures IsSubsequence(r, s)
    decreases |s|
  {
    if |pat| <= |s| && s[..|pat|] == pat then
      var rest := RemoveAll(s[|pat|..], pat);
      SubsequenceOfSuffix(rest, s, |pat|);
      rest
    else if s == [] then []
    else
      var rest := RemoveAll(s[1..], pat);
      SubsequenceCons(s[0], rest, s[1..]);
      assert [s[0]] + s[1..] == s;
      [s[0]] + rest
  }

  /** `s.replace(/[...]/g, "")` for a class of single characters. */
  function DeleteChars(s: string, cs: set<char>): (r: string)
    ensures forall i :: 0 <= i < |r| ==> r[i] !in cs
    ensures IsSubsequence(r, s)
    decreases |s|
  {
    if s == [] then []
    else
      var rest := DeleteChars(s[1..], cs);
      if s[0] in cs then
        SubsequenceOfSuffix(rest, s, 1);
        rest
      else
        SubsequenceCons(s[0], rest, s[1..]);
        assert [s[0]] + s[1..] == s;
        [s[0]] + rest
  }

  /** Every character outside the class is kept, as often as it occurs. */
  lemma {:induction false} DeleteCharsKeepsOthers(s: string, cs: set<char>)
    ensures forall c :: c !in cs ==> multiset(DeleteChars(s, cs))[c] == multiset(s)[c]
    decreases |s|
  {
    if s != [] {
      DeleteCharsKeepsOthers(s[1..], cs);
      assert s == [s[0]] + s[1..];
    }
  }

  /**
   * Length of the match of `\s*[\r\n]` at the start of `s`: the longest
   * whitespace prefix whose last character is `\r` or `\n`, or 0 when there is none.
   */
  function BlankLen(s: string): (r: nat)
    ensures r <= |s|
    ensures r > 0 ==> AllWhitespace(s[..r]) && IsNewline(s[r - 1])
    ensures forall k :: r < k <= |s| && AllWhitespace(s[..k]) ==> !IsNewline(s[k - 1])
    decreases |s|
  {
    if s == [] || !IsWhitespace(s[0]) then
      assert forall k :: 0 < k <= |s| ==> s[..k][0] == s[0];
      0
    else
      var rest := BlankLen(s[1..]);
      assert forall k :: 1 < k <= |s| ==> s[..k][1..] == s[1..][..k - 1];
      if rest > 0 then
        assert s[..rest + 1] == [s[0]] + s[1..][..rest];
        rest + 1
      else if IsNewline(s[0]) then 1
      else 0
  }

  /**
   * `replace(/^\s*[\r\n]/gm, "")` on the rest `s` of the original string,
   * where `atLineStart` says whether `^` matches before `s[0]` (the start of
   * the string, or just after a line terminator of the original string).
   */
  function StripBlankLinesFrom(s: string, atLineStart: bool): (r: string)
    ensures IsSubsequence(r, s)
    decreases |s|
  {
    if s == [] then []
    else if atLineStart && BlankLen(s) > 0 then
      var rest := StripBlankLinesFrom(s[BlankLen(s)..], true);
      SubsequenceOfSuffix(rest, s, BlankLen(s));
      rest
    else
      var rest := StripBlankLinesFrom(s[1..], IsLineTerminator(s[0]));
      SubsequenceCons(s[0], rest, s[1..]);
      assert [s[0]] + s[1..] == s;
      [s[0]] + rest
  }

  function StripBlankLines(s: string): (r: string)
    ensures IsSubsequence(r, s)
  {
    StripBlankLinesFrom(s, true)
  }

  /** The blank-line stage deletes only whitespace: every other character is kept, as often as it occurs. */
  lemma {:induction false} StripBlankLinesKeepsText(s: string, atLineStart: bool)
    ensures forall c :: !IsWhitespace(c) ==> multiset(StripBlankLinesFrom(s, atLineStart))[c] == multiset(s)[c]
    decreases |s|
  {
    if s == [] {
    } else if atLineStart && BlankLen(s) > 0 {
      var k := BlankLen(s);
      StripBlankLinesKeepsText(s[k..], true);
      assert s == s[..k] + s[k..];
      WhitespaceCounts(s[..k]);
    } else {
      StripBlankLinesKeepsText(s[1..], IsLineTerminator(s[0]));
      assert s == [s[0]] + s[1..];
    }
  }

  /** The leading-whitespace half of `trim`. */
  function TrimStart(s: string): (r: string)
    ensures |r| <= |s| && r == s[|s| - |r|..]
    ensures AllWhitespace(s[..|s| - |r|])
    ensures r == [] || !IsWhitespace(r[0])
    decreases |s|
  {
    if s != [] && IsWhitespace(s[0]) then
      var r := TrimStart(s[1..]);
      assert s[..|s| - |r|] == [s[0]] + s[1..][..|s| - 1 - |r|];
      r
    else s
  }

  /** The trailing-whitespace half of `trim`. */
  function TrimEnd(s: string): (r: string)
    ensures |r| <= |s| && r == s[..|r|]
    ensures AllWhitespace(s[|r|..])
    ensures r == [] || !IsWhitespace(r[|r| - 1])
    decreases |s|
  {
    if s != [] && IsWhitespace(s[|s| - 1]) then
      var r := TrimEnd(s[..|s| - 1]);
      assert s[|r|..] == s[..|s| - 1][|r|..] + [s[|s| - 1]];
      r
    else s
  }

  /** `String.prototype.trim`: removes the whitespace at both ends. */
  function Trim(s: string): (r: string)
    ensures r == [] || (!IsWhitespace(r[0]) && !IsWhitespace(r[|r| - 1]))
    ensures IsSubsequence(r, s)
  {
    TrimHalvesSubsequence(s);
    TrimEnd(TrimStart(s))
  }

  /** Both halves of `trim` only cut characters off the ends. */
  lemma TrimHalvesSubsequence(s: string)
    ensures IsSubsequence(TrimEnd(TrimStart(s)), s)
  {
    var t := TrimStart(s);
    var r := TrimEnd(t);
    SubsequenceReflexive(t);
    SubsequenceOfSuffix(t, s, |s| - |t|);
    PrefixIsSubsequence(t, |r|);
    SubsequenceTransitive(r, t, s);
  }

  /** Removing leading whitespace keeps every other character's count. */
  lemma TrimStartKeepsText(s: string)
    ensures forall c :: !IsWhitespace(c) ==> multiset(TrimStart(s))[c] == multiset(s)[c]
  {
    var t := TrimStart(s);
    var lead := s[..|s| - |t|];
    assert s == lead + t;
    assert multiset(s) == multiset(lead) + multiset(t);
    WhitespaceCounts(lead);
  }

  /** Removing trailing whitespace keeps every other character's count. */
  lemma TrimEndKeepsText(s: string)
    ensures forall c :: !IsWhitespace(c) ==> multiset(TrimEnd(s))[c] == multiset(s)[c]
  {
    var r := TrimEnd(s);
    var tail := s[|r|..];
    assert s == r + tail;
    assert multiset(s) == multiset(r) + multiset(tail);
    WhitespaceCounts(tail);
  }

  /** `trim` deletes only whitespace: every other character is kept, as often as it occurs. */
  lemma TrimKeepsText(s: string)
    ensures forall c :: !IsWhitespace(c) ==> multiset(Trim(s))[c] == multiset(s)[c]
  {
    TrimStartKeepsText(s);
    TrimEndKeepsText(TrimStart(s));
  }

  /** What `cleanOutput` guarantees of every text it returns. */
  predicate IsCleaned(s: string) {
    && '"' !in s && '[' !in s && ']' !in s
    && (s == [] || (!IsWhitespace(s[0]) && !IsWhitespace(s[|s| - 1])))
  }

  /** `cleanOutput(text)`; `None` stands for an absent (`undefined` or `null`) text. */
  function CleanOutput(text: Option<string>): (r: string)
    ensures text == None || text == Some("") ==> r == ""
    ensures IsCleaned(r)
  {
    match text
    case None => ""
    case Some(s) =>
      if s == "" then ""
      else
        var noJsonFence := RemoveAll(s, JsonFence);
        var noFence := RemoveAll(noJsonFence, Fence);
        var noBlankLines := StripBlankLines(noFence);
        var noQuotes := DeleteChars(noBlankLines, {'"'});
        var noBrackets := DeleteChars(noQuotes, {'[', ']'});
        SubsequenceExcludes(noBrackets, noQuotes, '"');
        var r := Trim(noBrackets);
        SubsequenceExcludes(r, noBrackets, '"');
        SubsequenceExcludes(r, noBrackets, '[');
        SubsequenceExcludes(r, noBrackets, ']');
        r
  }

  /** `p` is a position where `^` matches in multiline mode. */
  predicate LineStart(s: string, p: nat) {
    p == 0 || (p <= |s| && IsLineTerminator(s[p - 1]))
  }

  /** Some line of `s` is empty or only whitespace up to a `\r` or `\n`: the blank-line stage has a match. */
  ghost predicate HasBlankLine(s: string) {
    exists p: nat, k: nat :: p < k <= |s| && LineStart(s, p) && AllWhitespace(s[p..k]) && IsNewline(s[k - 1])
  }

  /** Text without `\r` or `\n` has no blank line. */
  lemma SingleLineHasNoBlankLine(s: string)
    requires '\n' !in s && '\r' !in s
    ensures !HasBlankLine(s)
  {
  }

  /** `cleanOutput` only deletes characters: its result is a subsequence of the text, never longer. */
  lemma CleanOutputOnlyDeletes(s: string)
    ensures IsSubsequence(CleanOutput(Some(s)), s)
    ensures |CleanOutput(Some(s))| <= |s|
  {
    if s == "" {
      SubsequenceReflexive(s);
    } else {
      var a := RemoveAll(s, JsonFence);
      var b := RemoveAll(a, Fence);
      var c := StripBlankLines(b);
      var d := DeleteChars(c, {'"'});
      var e := DeleteChars(d, {'[', ']'});
      var r := Trim(e);
      SubsequenceTransitive(b, a, s);
      SubsequenceTransitive(c, b, s);
      SubsequenceTransitive(d, c, s);
      SubsequenceTransitive(e, d, s);
      SubsequenceTransitive(r, e, s);
    }
    SubsequenceLength(CleanOutput(Some(s)), s);
  }

  /** A literal pattern whose first character does not occur is never matched. */
  lemma {:induction false} RemoveAllAbsent(s: string, pat: string)
    requires pat != [] && pat[0] !in s
    ensures RemoveAll(s, pat) == s
    decreases |s|
  {
    if s != [] {
      assert s == [s[0]] + s[1..];
      NoMatchAtOtherHead(s[0], s[1..], pat);
      RemoveAllKeepsNonMatch(s[0], s[1..], pat);
      RemoveAllAbsent(s[1..], pat);
    }
  }

  /**
   * A character at which no match starts is kept, a stray backtick included,
   * and deletion goes on after it.
   */
  lemma RemoveAllKeepsNonMatch(c: char, t: string, pat: string)
    requires pat != [] && !(|pat| <= |[c] + t| && ([c] + t)[..|pat|] == pat)
    ensures RemoveAll([c] + t, pat) == [c] + RemoveAll(t, pat)
  {
    assert ([c] + t)[1..] == t;
  }

  /** No match starts at a character other than the pattern's first. */
  lemma NoMatchAtOtherHead(c: char, t: string, pat: string)
    requires pat != [] && c != pat[0]
    ensures !(|pat| <= |[c] + t| && ([c] + t)[..|pat|] == pat)
  {
    assert |pat| <= |[c] + t| ==> ([c] + t)[..|pat|][0] == c;
  }

  /** A stretch without the pattern's first character passes through unchanged, whatever follows it. */
  lemma {:induction false} RemoveAllAfterAbsent(a: string, t: string, pat: string)
    requires pat != [] && pat[0] !in a
    ensures RemoveAll(a + t, pat) == a + RemoveAll(t, pat)
    decreases |a|
  {
    if a == [] {
      assert a + t == t;
    } else {
      calc {
        RemoveAll(a + t, pat);
        { assert a + t == [a[0]] + (a[1..] + t); }
        RemoveAll([a[0]] + (a[1..] + t), pat);
        { NoMatchAtOtherHead(a[0], a[1..] + t, pat);
          RemoveAllKeepsNonMatch(a[0], a[1..] + t, pat); }
        [a[0]] + RemoveAll(a[1..] + t, pat);
        { RemoveAllAfterAbsent(a[1..], t, pat); }
        [a[0]] + (a[1..] + RemoveAll(t, pat));
        { assert [a[0]] + a[1..] == a; }
        a + RemoveAll(t, pat);
      }
    }
  }

  /** A match of the pattern, after a stretch that cannot start one, is deleted and the scan goes on behind it. */
  lemma RemoveAllDeletesMatch(a: string, t: string, pat: string)
    requires pat != [] && pat[0] !in a
    ensures RemoveAll(a + pat + t, pat) == a + RemoveAll(t, pat)
  {
    RemoveAllAfterAbsent(a, pat + t, pat);
    assert a + pat + t == a + (pat + t);
    assert (pat + t)[..|pat|] == pat && (pat + t)[|pat|..] == t;
  }

  /** Deleting characters none of which occurs changes nothing. */
  lemma {:induction false} DeleteCharsAbsent(s: string, cs: set<char>)
    requires forall i :: 0 <= i < |s| ==> s[i] !in cs
    ensures DeleteChars(s, cs) == s
    decreases |s|
  {
    if s != [] {
      DeleteCharsAbsent(s[1..], cs);
    }
  }

  /** A match of the blank-line pattern at a line start is a blank line. */
  lemma BlankLineAt(s: string, i: nat)
    requires i <= |s| && LineStart(s, i) && BlankLen(s[i..]) > 0
    ensures HasBlankLine(s)
  {
    var k := BlankLen(s[i..]);
    assert s[i..][..k] == s[i..i + k];
    assert AllWhitespace(s[i..i + k]) && IsNewline(s[i + k - 1]);
  }

  /** Without a blank line, the blank-line stage leaves every rest of the text as it is. */
  lemma {:induction false} StripBlankLinesAbsent(s: string, i: nat)
    requires i <= |s| && !HasBlankLine(s)
    ensures StripBlankLinesFrom(s[i..], LineStart(s, i)) == s[i..]
    decreases |s| - i
  {
    if i < |s| {
      var u := s[i..];
      if LineStart(s, i) && BlankLen(u) > 0 {
        BlankLineAt(s, i);
        assert false;
      }
      assert u[1..] == s[i + 1..];
      StripBlankLinesAbsent(s, i + 1);
    }
  }

  /**
   * No line start of `r` begins a blank line: `atLineStart` says whether
   * `r[0]` is at a line start, and every later line start follows one of
   * `r`'s own line terminators.
   */
  predicate NoBlankLineFrom(r: string, atLineStart: bool)
    decreases |r|
  {
    r == [] || ((atLineStart ==> BlankLen(r) == 0) && NoBlankLineFrom(r[1..], IsLineTerminator(r[0])))
  }

  /** Text whose first line is not blank keeps that through the blank-line stage. */
  lemma {:induction false} StripBlankLinesKeepsFirstLine(s: string, atLineStart: bool)
    requires BlankLen(s) == 0
    ensures BlankLen(StripBlankLinesFrom(s, atLineStart)) == 0
    decreases |s|
  {
    if s != [] && IsWhitespace(s[0]) {
      var rest := StripBlankLinesFrom(s[1..], IsLineTerminator(s[0]));
      StripBlankLinesKeepsFirstLine(s[1..], IsLineTerminator(s[0]));
      assert ([s[0]] + rest)[1..] == rest;
    }
  }

  /**
   * The blank-line stage leaves no blank line at any line start of its
   * result: a match ends in a line break, and the whitespace that follows
   * it up to the next visible character holds no further `\r` or `\n`,
   * so it is kept as it is.
   */
  lemma {:induction false} StripBlankLinesLeavesNoMatch(s: string, atLineStart: bool)
    ensures NoBlankLineFrom(StripBlankLinesFrom(s, atLineStart), atLineStart)
    decreases |s|
  {
    if s == [] {
    } else if atLineStart && BlankLen(s) > 0 {
      StripBlankLinesLeavesNoMatch(s[BlankLen(s)..], true);
    } else {
      var rest := StripBlankLinesFrom(s[1..], IsLineTerminator(s[0]));
      StripBlankLinesLeavesNoMatch(s[1..], IsLineTerminator(s[0]));
      if atLineStart {
        StripBlankLinesKeepsFirstLine(s, atLineStart);
      }
      assert ([s[0]] + rest)[1..] == rest;
    }
  }

  /** Where `NoBlankLineFrom` holds, the blank-line pattern matches at no line start. */
  lemma {:induction false} NoBlankLineAt(r: string, atLineStart: bool, p: nat)
    requires NoBlankLineFrom(r, atLineStart)
    requires p <= |r| && ((p == 0 && atLineStart) || (0 < p && IsLineTerminator(r[p - 1])))
    ensures BlankLen(r[p..]) == 0
    decreases p
  {
    if p > 0 {
      NoBlankLineAt(r[1..], IsLineTerminator(r[0]), p - 1);
      assert r[1..][p - 1..] == r[p..];
    }
  }

  /** After the blank-line stage no blank line is left. */
  lemma StripBlankLinesLeavesNoBlankLine(s: string)
    ensures !HasBlankLine(StripBlankLines(s))
  {
    var r := StripBlankLines(s);
    StripBlankLinesLeavesNoMatch(s, true);
    forall p: nat, k: nat | p < k <= |r| && LineStart(r, p) && AllWhitespace(r[p..k])
      ensures !IsNewline(r[k - 1])
    {
      NoBlankLineAt(r, true, p);
      assert r[p..][..k - p] == r[p..k];
    }
  }

  /** The blank-line stage is idempotent. */
  lemma StripBlankLinesIdempotent(s: string)
    ensures StripBlankLines(StripBlankLines(s)) == StripBlankLines(s)
  {
    var r := StripBlankLines(s);
    StripBlankLinesLeavesNoBlankLine(s);
    StripBlankLinesAbsent(r, 0);
    assert r[0..] == r;
  }

  /** `trim` leaves text without surrounding whitespace as it is. */
  lemma TrimAbsent(s: string)
    requires s == [] || (!IsWhitespace(s[0]) && !IsWhitespace(s[|s| - 1]))
    ensures Trim(s) == s
  {
  }

  /**
   * Text that has no backtick, quote or bracket, no blank line and no
   * surrounding whitespace comes out of `cleanOutput` unchanged.
   */
  lemma CleanOutputKeepsCleanText(s: string)
    requires '`' !in s && '"' !in s && '[' !in s && ']' !in s
    requires !HasBlankLine(s)
    requires s == [] || (!IsWhitespace(s[0]) && !IsWhitespace(s[|s| - 1]))
    ensures CleanOutput(Some(s)) == s
  {
    if s != [] {
      FencesAbsent(s);
      StripBlankLinesAbsent(s, 0);
      DeleteCharsAbsent(s, {'"'});
      DeleteCharsAbsent(s, {'[', ']'});
      TrimAbsent(s);
    }
  }

  /** A line break at a line start is itself a blank line and is deleted with whatever blank lines follow it. */
  lemma LeadingNewlineStripped(t: string)
    ensures StripBlankLinesFrom("\n" + t, true) == StripBlankLinesFrom(t, true)
  {
  }

  /**
   * A reply wrapped in a JSON code fence cleans to the same text as the bare
   * reply, provided the reply itself holds no backtick.
   */
  lemma CleanOutputUnwrapsJsonFence(b: string)
    requires '`' !in b
    ensures CleanOutput(Some(JsonFence + "\n" + b + Fence)) == CleanOutput(Some(b))
  {
    var body := "\n" + b;
    assert JsonFence + "\n" + b + Fence == JsonFence + (body + Fence);
    JsonFenceStageUnwraps(body);
    FenceStageUnwraps(body);
    CleanOutputPipeline(JsonFence + (body + Fence));
    if b != "" { CleanOutputPipeline(b); }
    LeadingNewlineStripped(b);
    FencesAbsent(b);
  }

  /** The "```json" stage deletes a leading "```json" and keeps a backtick-free body and the closing fence. */
  lemma JsonFenceStageUnwraps(body: string)
    requires '`' !in body
    ensures RemoveAll(JsonFence + (body + Fence), JsonFence) == body + Fence
  {
    var s := JsonFence + (body + Fence);
    assert s[..|JsonFence|] == JsonFence;
    assert s[|JsonFence|..] == body + Fence;
    RemoveAllAfterAbsent(body, Fence, JsonFence);
    assert RemoveAll(Fence, JsonFence) == Fence;
  }

  /** The "```" stage deletes the closing fence after a backtick-free body. */
  lemma FenceStageUnwraps(body: string)
    requires '`' !in body
    ensures RemoveAll(body + Fence, Fence) == body
  {
    RemoveAllAfterAbsent(body, Fence, Fence);
    assert Fence[..|Fence|] == Fence;
    assert RemoveAll(Fence, Fence) == [];
    assert body + [] == body;
  }

  /** `cleanOutput` of a non-empty text, stage by stage. */
  lemma CleanOutputPipeline(s: string)
    requires s != ""
    ensures CleanOutput(Some(s))
         == Trim(DeleteChars(DeleteChars(StripBlankLines(RemoveAll(RemoveAll(s, JsonFence), Fence)), {'"'}), {'[', ']'}))
  {
  }

  /** Without a backtick neither fence stage has anything to delete. */
  lemma FencesAbsent(s: string)
    requires '`' !in s
    ensures RemoveAll(RemoveAll(s, JsonFence), Fence) == s
  {
    RemoveAllAbsent(s, JsonFence);
    RemoveAllAbsent(s, Fence);
  }

  /** A character no stage of `cleanOutput` deletes or reacts to: not whitespace, a quote, a bracket or a backtick. */
  predicate PlainChar(c: char) {
    !IsWhitespace(c) && c != '"' && c != '[' && c != ']' && c != '`'
  }

  /** The line holding only a quote is not blank, so the blank-line stage keeps it. */
  lemma StripQuoteLine(x: char, y: char)
    requires PlainChar(x) && PlainChar(y)
    ensures StripBlankLines([x, '\n', '"', '\n', y]) == [x, '\n', '"', '\n', y]
  {
    var s := [x, '\n', '"', '\n', y];
    assert s[1..] == ['\n', '"', '\n', y] && s[2..] == ['"', '\n', y];
    assert s[3..] == ['\n', y] && s[4..] == [y] && s[5..] == [];
    assert StripBlankLinesFrom(s[4..], true) == s[4..];
    assert StripBlankLinesFrom(s[3..], false) == s[3..];
    assert StripBlankLinesFrom(s[2..], true) == s[2..];
    assert StripBlankLinesFrom(s[1..], false) == s[1..];
  }

  /** The quote stage empties the quote's line. */
  lemma DeleteQuoteLine(x: char, y: char)
    requires PlainChar(x) && PlainChar(y)
    ensures DeleteChars([x, '\n', '"', '\n', y], {'"'}) == [x, '\n', '\n', y]
  {
    var s := [x, '\n', '"', '\n', y];
    assert s[1..] == ['\n', '"', '\n', y] && s[2..] == ['"', '\n', y];
    assert s[3..] == ['\n', y] && s[4..] == [y] && s[5..] == [];
    assert DeleteChars(s[4..], {'"'}) == [y];
    assert DeleteChars(s[3..], {'"'}) == ['\n', y];
    assert DeleteChars(s[2..], {'"'}) == ['\n', y];
    assert DeleteChars(s[1..], {'"'}) == ['\n', '\n', y];
  }

  /** An empty line is deleted by the blank-line stage. */
  lemma StripEmptyLine(x: char, y: char)
    requires PlainChar(x) && PlainChar(y)
    ensures StripBlankLines([x, '\n', '\n', y]) == [x, '\n', y]
  {
    var s := [x, '\n', '\n', y];
    assert s[1..] == ['\n', '\n', y] && s[2..] == ['\n', y] && s[3..] == [y] && s[4..] == [];
    assert StripBlankLinesFrom(s[3..], true) == [y];
    assert BlankLen(s[2..]) == 1;
    assert StripBlankLinesFrom(s[2..], true) == [y];
    assert StripBlankLinesFrom(s[1..], false) == ['\n', y];
  }

  /**
   * `cleanOutput` of a backtick-free text, stage by stage: when the
   * blank-line stage yields `t` and the quote stage turns `t` into a text
   * with nothing left for the bracket and trim stages, that text is the result.
   */
  lemma CleanOutputChain(s: string, t: string, u: string)
    requires s != "" && '`' !in s
    requires StripBlankLines(s) == t && DeleteChars(t, {'"'}) == u
    requires '[' !in u && ']' !in u
    requires u == [] || (!IsWhitespace(u[0]) && !IsWhitespace(u[|u| - 1]))
    ensures CleanOutput(Some(s)) == u
  {
    calc {
      CleanOutput(Some(s));
      { CleanOutputPipeline(s); }
      Trim(DeleteChars(DeleteChars(StripBlankLines(RemoveAll(RemoveAll(s, JsonFence), Fence)), {'"'}), {'[', ']'}));
      { FencesAbsent(s); }
      Trim(DeleteChars(u, {'[', ']'}));
      { DeleteCharsAbsent(u, {'[', ']'}); }
      Trim(u);
      { TrimAbsent(u); }
      u;
    }
  }

  /**
   * `cleanOutput` is not idempotent: deleting a quote can leave behind an
   * empty line that only a second pass removes. With `x` = 'a' and `y` =
   * 'b', "a\n\"\nb" cleans to "a\n\nb", which cleans to "a\nb".
   */
  lemma CleanOutputNotIdempotent(x: char, y: char)
    requires PlainChar(x) && PlainChar(y)
    ensures CleanOutput(Some([x, '\n', '"', '\n', y])) == [x, '\n', '\n', y]
    ensures CleanOutput(Some([x, '\n', '\n', y])) == [x, '\n', y]
  {
    StripQuoteLine(x, y);
    DeleteQuoteLine(x, y);
    CleanOutputChain([x, '\n', '"', '\n', y], [x, '\n', '"', '\n', y], [x, '\n', '\n', y]);
    StripEmptyLine(x, y);
    DeleteCharsAbsent([x, '\n', y], {'"'});
    CleanOutputChain([x, '\n', '\n', y], [x, '\n', y], [x, '\n', y]);
  }

  lemma FencesKeepSplitFence()
    ensures RemoveAll(RemoveAll("``\"`", JsonFence), Fence) == "``\"`"
  {
  }

  lemma SplitFenceAfterFences()
    ensures Trim(DeleteChars(DeleteChars(StripBlankLines("``\"`"), {'"'}), {'[', ']'})) == Fence
  {
    var s := "``\"`";
    assert StripBlankLinesFrom(s[3..], false) == s[3..];
    assert StripBlankLinesFrom(s[2..], false) == s[2..];
    assert StripBlankLinesFrom(s[1..], false) == s[1..];
    assert StripBlankLines(s) == s;
    assert DeleteChars(s[3..], {'"'}) == "`";
    assert DeleteChars(s[2..], {'"'}) == "`";
    assert DeleteChars(s[1..], {'"'}) == "``";
    assert DeleteChars(s, {'"'}) == Fence;
    DeleteCharsAbsent(Fence, {'[', ']'});
    TrimAbsent(Fence);
  }

  /** Deleting a quote can join backticks into a fence that survives cleaning. */
  lemma CleanOutputCanLeaveFence()
    ensures CleanOutput(Some("``\"`")) == Fence
  {
    FencesKeepSplitFence();
    SplitFenceAfterFences();
    CleanOutputPipeline("``\"`");
  }
}

=== FILE: wrappers.dfy ===
/** Optional values and results that carry a JavaScript error message. */
module Wrappers {

  /** A value that may be absent (`undefined`, `null`, or not of the expected type). */
  datatype Option<+T> = None | Some(value: T)

  /** The outcome of an `await` that either yields a value or throws an error with a message. */
  datatype Result<+T> = Success(value: T) | Failure(error: string) {

    predicate IsFailure() {
      Failure?
    }

    function PropagateFailure<U>(): Result<U>
      requires Failure?
    {
      Failure(error)
    }

    function Extract(): T
      requires Success?
    {
      value
    }
  }
}
